=== FILE: README.md ===
# cw: a CloudWatch-to-StatHat relay, modelled in Dafny

`cw` is a small Go program (`cw.go`) that polls AWS CloudWatch for a configured set of metrics
and relays each newly published data point to StatHat. Each poll asks `GetMetricData` for the
five minutes that end at the next minute boundary. It walks the returned results in order and
looks only at each one's newest point (timestamps come newest first, cw.go:71). It keeps a per-metric watermark, the Unix second of the last point it reported. A point is
printed, and posted to StatHat when the metric has a `stat_name`, only when it is strictly newer
than that watermark. The watermark then advances to it. The loop then sleeps for the rest of
its interval (`sleep` seconds, 30 by default), minus the time the iteration took.

This project models that logic as pure functions and proves its properties:

- `options.dfy` — `Options.Option`, for nil pointers and absent configuration keys.
- `clock.dfy` — `Clock`: nanosecond units and the wrap-around of Go's `int64` arithmetic.
- `planner.dfy` — `Planner`: the fetch window (`end` = now truncated to the minute plus one
  minute, `start` = `end` minus five minutes).
- `pacing.dfy` — `Pacing`: the configured interval and the drift-corrected sleep.
- `query.dfy` — `Query`: building the metric-data queries and the stat-name table at startup,
  including the rule that a dimension is attached only when both `dimension` and `dimvalue` are set.
- `dedup.dfy` — `Dedup`: the watermark store and the dedup/forward step. This is the core. `Step` is the
  loop body for one result and `Process` folds it over the results of one fetch. The lemmas prove
  that the store is monotone and framed. They prove exactly when a result is reported, that
  forwarding is the stat-name filter of what is printed, that a pass is idempotent, and that
  nothing is reported twice.
- `loop.dfy` — `Loop`: whole iterations and runs over a sequence of polls. The clock readings,
  the fetched results and the iteration durations are inputs. It proves that a run reports what one pass over everything fetched would. It also proves that
  overlapping polls report each point at most once, and that the cadence leaves no gap between
  windows when the interval and each iteration stay within four minutes and the clock reading
  after a sleep comes less than a minute late.
- `scenarios.dfy` — `Scenarios`: three concrete runs (two overlapping polls, a metric without
  a stat name, a metric with no data).

Units: clock readings, windows and durations are nanoseconds, as Go's `time.Duration` and
`time.Time`. Watermarks and result timestamps are Unix seconds, as `Time.Unix()` returns them.
Metric values are an opaque type parameter `V`: they are only passed through.

Points where the code behaves in ways a reader might not expect:

- A lone `dimension` or `dimvalue` is silently dropped (cw.go:55), not rejected as a
  configuration error.
- The configuration keys are `sleep`, `stat_name` and `stathat.ezkey`.
- A metric with no watermark reads as 0, Go's zero value for a missing map key (cw.go:97). There
  is no "unset" sentinel, so a point stamped at or before the Unix epoch is never reported.
- The watermark advances for every printed point, forwarded or not (cw.go:106).
- `sleep` is multiplied into an `int64` count of nanoseconds (cw.go:28). A setting above
  9223372036 seconds wraps around to a different interval, which is negative for 9223372037
  seconds. The model keeps the wrap-around (`Clock.Int64`).
- `sleepDur - time.Since(now)` (cw.go:108) is `int64` arithmetic too. With the wrapped negative
  interval, an iteration longer than 145224192 nanoseconds underflows the subtraction to a huge
  positive duration: the loop then sleeps for more than 292 years after its first slow iteration
  (`Pacing.OversizedSleepStalls`).

## Model

| member | source | states |
|---|---|---|
| Clock.Int64 | cw.go:108 | Go's `int64` duration arithmetic: the result is an `int64` congruent to the exact value, and equal to it when that fits |
| Planner.TruncateToMinute | cw.go:79 | `Truncate(time.Minute)` gives a whole minute no later than the time and less than a minute before it |
| Planner.Plan | cw.go:79-80 | the window ends on a minute boundary strictly after `now` and at most a minute later, and spans exactly five minutes |
| Planner.PlanDependsOnlyOnMinute | cw.go:79-80 | two clock readings in the same minute give the same window |
| Planner.PlanMonotone | cw.go:79-80 | a later poll never asks for an earlier window |
| Planner.PlanLeavesNoGap | cw.go:79-80 | a poll at most four minutes after another asks for a window that starts before the earlier one ends |
| Planner.PlanWindowsTouch | cw.go:79-80 | a poll less than five minutes after another asks for a window that starts no later than the earlier one ends, and ends no earlier |
| Pacing.SleepDuration | cw.go:26-29 | the interval is 30 s without `sleep`, `sleep` seconds for a setting that fits, and the `int64` wrap-around of it otherwise |
| Pacing.Remaining | cw.go:108 | what is left is the interval minus the elapsed time, as an `int64`: congruent to the exact difference modulo 2^64, and exact for a non-negative interval |
| Pacing.Wait | cw.go:109 | the sleep requested of `time.Sleep` is the duration when it is positive and nothing otherwise; the real sleep can exceed it |
| Pacing.WaitCompensatesDrift | cw.go:108-109 | with a sane setting the wait is `max(0, interval - elapsed)`, so iteration plus requested wait is `max(interval, elapsed)` |
| Pacing.OversizedSleepWrapsNegative | cw.go:28 | a `sleep` one second above the largest representable interval yields a negative interval, 145224192 ns above the `int64` minimum |
| Pacing.OversizedSleepStalls | cw.go:108-109 | with that setting an iteration of at most 145224192 ns does not wait, and a slower one waits `(9223372037 s - elapsed)`, more than 292 years after an iteration of up to an hour |
| Query.Dimensions | cw.go:55-61 | a query carries one dimension (`dimension`, `dimvalue`) exactly when both keys are set, otherwise none |
| Query.BuildQueries | cw.go:39-67 | one query per metric key, in key order; the stat-name table holds exactly the metrics that set `stat_name`, under that name; every query id is a configured key and every metric with a stat name has a query with its id |
| Dedup.Forwards | cw.go:102-104 | forwarding never produces more posts than printed points |
| Dedup.NamedPositions | cw.go:102 | the positions of printed points whose metric has a stat name, strictly increasing |
| Dedup.NamedPositionsComplete | cw.go:102 | no printed point whose metric has a stat name is missing from those positions |
| Dedup.ForwardsAtNamedPositions | cw.go:102-104 | the posts are, in order, one per named position, carrying the stat name, the point's value and its timestamp |
| Dedup.Step | cw.go:88-106 | a result is printed exactly when its newest timestamp is set and above the watermark, and the watermark then becomes that timestamp; otherwise nothing changes; posts are the forwarding of what is printed |
| Dedup.Process | cw.go:87-107 | one fetch prints at most one line per result, and posts exactly the forwarding of what it prints |
| Dedup.ProcessMonotone | cw.go:97-106 | no watermark decreases over a fetch |
| Dedup.ProcessFrame | cw.go:106 | only ids of printed points gain or change an entry; every other entry keeps its value or stays absent |
| Dedup.ProcessForwardsNamedPrinted | cw.go:101-104 | what a fetch posts is, in order, exactly one post per printed point whose metric has a stat name, under that name with the same value and timestamp |
| Dedup.ProcessAppend | cw.go:87-107 | processing a concatenation is processing its parts in turn from the store the first part left |
| Dedup.ProcessCovers | cw.go:97-106 | after a fetch, every watermark is at least the newest timestamp any result showed for its id |
| Dedup.ProcessCoveredIsQuiet | cw.go:97-98 | results all covered by the store print, post and change nothing |
| Dedup.ProcessIdempotent | cw.go:97-106 | processing the same results again against the updated store prints, posts and changes nothing |
| Dedup.ProcessWatermarkAttained | cw.go:106 | each final watermark is the old one or the newest timestamp of one of the results for that id |
| Dedup.ProcessWatermarkIsMaximum | cw.go:97-106 | each final watermark is the maximum of the old one and the newest timestamps the results showed for that id |
| Dedup.ProcessSnoc | cw.go:87-107 | one more result is one more step from where the prefix left the store |
| Dedup.NewAtIsNew | cw.go:97-99 | the store's test after a prefix holds exactly when the result beats the old watermark and every earlier result for its id |
| Dedup.EmittedExactlyWhen | cw.go:92-106 | the result at position i is printed, with its first value and newest timestamp, exactly when it beats the old watermark and every earlier result for its id, and then its watermark becomes that timestamp; otherwise nothing changes |
| Dedup.ProcessPrintsBetween | cw.go:97-106 | every printed point lies strictly after its id's old watermark and no later than its new one |
| Dedup.ProcessPrintsIncreasing | cw.go:97-106 | for each id, printed timestamps strictly increase |
| Dedup.IncreasingIsAtMostOnce | cw.go:97-106 | strictly increasing timestamps per id mean no (id, timestamp) is printed twice |
| Dedup.UnseenMetricIgnoresNonPositiveStamp | cw.go:97 | a metric without a watermark reads as 0, so a first point at or before the epoch is not reported |
| Loop.Iterate | cw.go:77-110 | an iteration asks for the window planned from its clock reading, only moves watermarks forward, covers every fetched timestamp, and with a non-negative interval its running time plus requested wait is the longer of the two |
| Loop.Run | cw.go:77-110 | a run plans one window per poll from that poll's clock reading and only moves watermarks forward |
| Loop.RunIsOnePass | cw.go:77-110 | a run prints, posts and stores exactly what one pass over all its fetched results would |
| Loop.RunReportsAtMostOnce | cw.go:87-107 | across overlapping polls no (id, timestamp) is printed twice, per id timestamps increase, and all lie after the starting watermark |
| Loop.RepeatedFetchReportsOnce | cw.go:87-107 | a second poll that fetches the same results adds no lines, no posts and no store changes |
| Loop.CadenceLeavesNoGap | cw.go:78-109 | with interval and iteration time at most four minutes and the next clock reading less than a minute after the computed wake-up, the next window starts no later than the current one ends and ends no earlier |
| Scenarios.OverlappingPollsReportOnce | cw.go:87-107 | a cpu point stamped 95 seen by two polls is printed and posted once, and the cpu watermark ends at 95 |
| Scenarios.UnnamedMetricIsPrintedOnly | cw.go:101-104 | a new point of a metric without a stat name is printed but not posted |
| Scenarios.EmptyResultIsSilent | cw.go:88-90 | a result with no timestamps prints nothing, posts nothing and leaves the store alone |

## Left out

- Loading `config.toml` and its type assertions (cw.go:20-25, the `.(int64)` assertion at cw.go:28,
  cw.go:41-49, the `.(string)` assertions on `dimension` and `dimvalue` at cw.go:57-58, and
  cw.go:64-65) are left out. The
  extracted fields are inputs (`Query.MetricConfig`, the `sleep` option). A missing or ill-typed
  required key makes Go panic. That case is not modelled.
- The order of `metrics.Keys()` is left out. It comes from the TOML library, so `Query.BuildQueries`
  takes the key order as a parameter.
- The AWS session, client and `GetMetricData` call (cw.go:31-34, 68-73, 83-86) are left out,
  because they are network I/O. Each poll's results are an input. The model does not relate them
  to the window they were fetched for. The fatal exit on a fetch error ends the process and is not modelled.
- `stathat.PostEZValueTime` (cw.go:103) is a network side effect and appears only as an entry
  in the posted log. The StatHat key it is sent with is the same for every post and is not
  carried. The library sends asynchronously, so the order and success of the actual deliveries
  are not modelled.
- `trapSignals` (cw.go:113-123) is left out. It is signal handling, a bounded wait on the
  StatHat library and `os.Exit`: concurrency and process control.
- The `%.3f` formatting of printed lines (cw.go:101) is left out. Metric values are opaque and no
  floating-point arithmetic is done on them.
- `time.Now` and `time.Since` are left out because they read the wall clock. Each poll's clock
  reading and elapsed time are inputs.
- How long `time.Sleep` really sleeps is left out: it pauses for at least the requested duration,
  and the overrun depends on the scheduler. `Pacing.Wait` is the requested sleep, and
  `Loop.CadenceLeavesNoGap` allows the next clock reading up to a minute after the planned wake-up.
- The loop runs forever. `Loop.Run` models any finite prefix of it.
- Dedup.Step: requires a first value whenever a result's newest timestamp is set (`WellFormed`).
  The source reads `Values[0]` only when it reports the point, and panics if it is missing.
  CloudWatch returns timestamps and values in parallel. Nil entries of `Values` and a nil `Id`
  are not modelled.
- Dedup.Process: carries the same `WellFormed` precondition for every result, for the same reason.

=== FILE: clock.dfy ===
/**
 This module fixes the units of the model and Go's 64-bit integer arithmetic on them.
 A `time.Duration` and a `time.Time` read as Unix time are counts of nanoseconds held in an
 `int64`; Go's integer arithmetic on them wraps around silently.
 */
module Clock {

  const Second: int := 1_000_000_000
  const Minute: int := 60 * Second

  const MinInt64: int := -0x8000_0000_0000_0000
  const MaxInt64: int := 0x7fff_ffff_ffff_ffff
  const Int64Span: int := 0x1_0000_0000_0000_0000

  predicate IsInt64(x: int) {
    MinInt64 <= x <= MaxInt64
  }

  /** The two's-complement wrap-around of Go's `int64` arithmetic: the unique `int64` congruent to `x`. */
  function Int64(x: int): (r: int)
    ensures IsInt64(r)
    ensures (x - r) % Int64Span == 0
    ensures IsInt64(x) ==> r == x
  {
    (x - MinInt64) % Int64Span + MinInt64
  }
}

=== FILE: dedup.dfy ===
/**
 The dedup/forward step of the polling loop. A per-metric watermark records the Unix second of
 the newest point already reported; a fetched result is reported (printed, and forwarded when the
 metric has a stat name) only when its newest point is strictly after that watermark, which then
 advances to it. Windows of consecutive polls overlap, so this is what keeps a point from being
 reported twice.
 */
module Dedup {
  import opened Options

  /**
   One fetched result. `timestamps` are newest first (the query scans by descending timestamp) and
   a nil timestamp is `None`; `values` run parallel to them. Metric values are opaque: `V`.
   */
  datatype MetricResult<V> = MetricResult(id: string, timestamps: seq<Option<int>>, values: seq<V>)

  /** The watermark store: metric id to the Unix second of the last reported point. */
  type Watermarks = map<string, int>

  /** Metric id to the name its points are forwarded under. */
  type StatNames = map<string, string>

  /** A line written to standard output: id, value and timestamp of a new point. */
  datatype Printed<V> = Printed(id: string, value: V, stamp: int)

  /** A point handed to the forwarder: stat name, value and Unix timestamp. */
  datatype Posted<V> = Posted(statName: string, value: V, stamp: int)

  /** The effect of processing results: the new watermarks and what was printed and forwarded, in order. */
  datatype Outcome<V> = Outcome(last: Watermarks, printed: seq<Printed<V>>, posted: seq<Posted<V>>)

  /** Nothing reported, watermarks as given. */
  function Quiet<V>(last: Watermarks): Outcome<V> {
    Outcome(last, [], [])
  }

  /** Running `second` after `first`: the later watermarks, and both logs in order. */
  function Then<V>(first: Outcome<V>, second: Outcome<V>): Outcome<V> {
    Outcome(second.last, first.printed + second.printed, first.posted + second.posted)
  }

  lemma ThenAssociative<V>(x: Outcome<V>, y: Outcome<V>, z: Outcome<V>)
    ensures Then(x, Then(y, z)) == Then(Then(x, y), z)
  {
  }

  /** The stored watermark; an id never reported reads as 0, Go's zero value for a missing key. */
  function Watermark(last: Watermarks, id: string): int {
    if id in last then last[id] else 0
  }

  /** The newest timestamp of a result, if it has a first timestamp that is not nil. */
  function Latest<V>(r: MetricResult<V>): Option<int> {
    if |r.timestamps| == 0 then None else r.timestamps[0]
  }

  /** A result whose newest timestamp is set also has a first value, which reporting reads. */
  predicate WellFormed<V>(r: MetricResult<V>) {
    Latest(r).Some? ==> |r.values| > 0
  }

  predicate AllWellFormed<V>(rs: seq<MetricResult<V>>) {
    forall i :: 0 <= i < |rs| ==> WellFormed(rs[i])
  }

  /** The store's "is new" test: the newest timestamp is strictly after the watermark. */
  predicate IsNew<V>(last: Watermarks, r: MetricResult<V>) {
    Latest(r).Some? && Watermark(last, r.id) < Latest(r).value
  }

  /** The ids of printed points. */
  function Ids<V>(ps: seq<Printed<V>>): set<string> {
    set i | 0 <= i < |ps| :: ps[i].id
  }

  /** The forwarding of one printed point: a post when its metric has a stat name. */
  function Forward<V>(p: Printed<V>, names: StatNames): seq<Posted<V>> {
    if p.id in names then [Posted(names[p.id], p.value, p.stamp)] else []
  }

  /**
   The posts that printing `ps` gives rise to: the printed points whose metric has a stat name,
   in the same order, under that name.
   */
  function Forwards<V>(ps: seq<Printed<V>>, names: StatNames): (fs: seq<Posted<V>>)
    ensures |fs| <= |ps|
    decreases |ps|
  {
    if ps == [] then [] else Forward(ps[0], names) + Forwards(ps[1..], names)
  }

  /**
   The positions from `k` on in `ps` of the printed points whose metric has a stat name, each once,
   in increasing order.
   */
  function NamedPositions<V>(ps: seq<Printed<V>>, names: StatNames, k: nat): (idx: seq<int>)
    requires k <= |ps|
    ensures forall i :: 0 <= i < |idx| ==> k <= idx[i] < |ps| && ps[idx[i]].id in names
    ensures forall i, j :: 0 <= i < j < |idx| ==> idx[i] < idx[j]
    decreases |ps| - k
  {
    if k == |ps| then []
    else
      var rest := NamedPositions(ps, names, k + 1);
      if ps[k].id in names then [k] + rest else rest
  }

  /** No named position is missed. */
  lemma {:induction false} NamedPositionsComplete<V>(ps: seq<Printed<V>>, names: StatNames, k: nat)
    requires k <= |ps|
    ensures forall j :: k <= j < |ps| && ps[j].id in names ==> j in NamedPositions(ps, names, k)
    decreases |ps| - k
  {
    if k < |ps| {
      NamedPositionsComplete(ps, names, k + 1);
    }
  }

  /** The post a printed point gives rise to when its metric has a stat name. */
  function PostOf<V>(p: Printed<V>, names: StatNames): Posted<V>
    requires p.id in names
  {
    Posted(names[p.id], p.value, p.stamp)
  }

  /** Posts that match positions still match after one more post and position in front. */
  lemma PostsMatchCons<V>(ps: seq<Printed<V>>, names: StatNames, k: int, rest: seq<int>, tail: seq<Posted<V>>)
    requires 0 <= k < |ps| && ps[k].id in names
    requires forall i :: 0 <= i < |rest| ==> 0 <= rest[i] < |ps| && ps[rest[i]].id in names
    requires |tail| == |rest|
    requires forall i :: 0 <= i < |tail| ==> tail[i] == PostOf(ps[rest[i]], names)
    ensures forall i :: 0 <= i < |tail| + 1 ==> ([PostOf(ps[k], names)] + tail)[i] == PostOf(ps[([k] + rest)[i]], names)
  {
  }

  /**
   Forwarding is an order-preserving filter: the posts are, in order, one for each printed point
   whose metric has a stat name, carrying that name with the point's value and timestamp.
   */
  lemma {:induction false} ForwardsAtNamedPositions<V>(ps: seq<Printed<V>>, names: StatNames, k: nat)
    requires k <= |ps|
    ensures var idx := NamedPositions(ps, names, k);
      var fs := Forwards(ps[k..], names);
      && |fs| == |idx|
      && forall i :: 0 <= i < |fs| ==> fs[i] == PostOf(ps[idx[i]], names)
    decreases |ps| - k
  {
    if k < |ps| {
      ForwardsAtNamedPositions(ps, names, k + 1);
      var rest := NamedPositions(ps, names, k + 1);
      var tail := Forwards(ps[k + 1..], names);
      assert Forwards(ps[k..], names) == Forward(ps[k], names) + tail by {
        assert ps[k..][0] == ps[k];
        assert ps[k..][1..] == ps[k + 1..];
      }
      if ps[k].id in names {
        assert NamedPositions(ps, names, k) == [k] + rest;
        PostsMatchCons(ps, names, k, rest, tail);
      } else {
        assert NamedPositions(ps, names, k) == rest;
        assert Forward(ps[k], names) + tail == tail;
      }
    }
  }

  lemma {:induction false} ForwardsAppend<V>(a: seq<Printed<V>>, b: seq<Printed<V>>, names: StatNames)
    ensures Forwards(a + b, names) == Forwards(a, names) + Forwards(b, names)
    decreases |a|
  {
    if a == [] {
      assert a + b == b;
    } else {
      assert (a + b)[0] == a[0];
      assert (a + b)[1..] == a[1..] + b;
      ForwardsAppend(a[1..], b, names);
    }
  }

  lemma IdsAppend<V>(a: seq<Printed<V>>, b: seq<Printed<V>>)
    ensures Ids(a + b) == Ids(a) + Ids(b)
  {
    forall k | k in Ids(a + b)
      ensures k in Ids(a) + Ids(b)
    {
      var i :| 0 <= i < |a + b| && (a + b)[i].id == k;
      if i >= |a| {
        assert b[i - |a|].id == k;
      }
    }
    forall k | k in Ids(a)
      ensures k in Ids(a + b)
    {
      var i :| 0 <= i < |a| && a[i].id == k;
      assert (a + b)[i].id == k;
    }
    forall k | k in Ids(b)
      ensures k in Ids(a + b)
    {
      var i :| 0 <= i < |b| && b[i].id == k;
      assert (a + b)[|a| + i].id == k;
    }
  }

  /**
   The loop body for one result. A result with no timestamps, or a nil newest one, is skipped, and so
   is one not newer than its watermark. Otherwise the point is printed, forwarded if its metric has
   a stat name, and the watermark moves to its timestamp; no other watermark changes.
   */
  function Step<V>(last: Watermarks, names: StatNames, r: MetricResult<V>): (o: Outcome<V>)
    requires WellFormed(r)
    ensures IsNew(last, r) ==> o.printed == [Printed(r.id, r.values[0], Latest(r).value)]
    ensures IsNew(last, r) ==> o.last == last[r.id := Latest(r).value]
    ensures !IsNew(last, r) ==> o.printed == [] && o.last == last
    ensures o.posted == Forwards(o.printed, names)
  {
    if |r.timestamps| == 0 then Quiet(last)
    else
      match r.timestamps[0]
      case None => Quiet(last)
      case Some(stamp) =>
        if Watermark(last, r.id) >= stamp then Quiet(last)
        else
          var value := r.values[0];
          var posted := if r.id in names then [Posted(names[r.id], value, stamp)] else [];
          Outcome(last[r.id := stamp], [Printed(r.id, value, stamp)], posted)
  }

  /**
   The loop over the results of one fetch, in the order the source returned them: at most one line
   per result, and what is forwarded is what is printed for metrics that have a stat name.
   */
  function Process<V>(last: Watermarks, names: StatNames, rs: seq<MetricResult<V>>): (o: Outcome<V>)
    requires AllWellFormed(rs)
    ensures |o.printed| <= |rs|
    ensures o.posted == Forwards(o.printed, names)
    decreases |rs|
  {
    if rs == [] then Quiet(last)
    else
      var first := Step(last, names, rs[0]);
      var rest := Process(first.last, names, rs[1..]);
      ForwardsAppend(first.printed, rest.printed, names);
      Then(first, rest)
  }

  /** Watermarks never move back. */
  lemma {:induction false} ProcessMonotone<V>(last: Watermarks, names: StatNames, rs: seq<MetricResult<V>>)
    requires AllWellFormed(rs)
    ensures forall k :: Watermark(last, k) <= Watermark(Process(last, names, rs).last, k)
    decreases |rs|
  {
    if rs != [] {
      var first := Step(last, names, rs[0]);
      var o := Process(last, names, rs);
      ProcessMonotone(first.last, names, rs[1..]);
      assert o.last == Process(first.last, names, rs[1..]).last;
      forall k
        ensures Watermark(last, k) <= Watermark(o.last, k)
      {
        assert Watermark(last, k) <= Watermark(first.last, k);
      }
    }
  }

  /** Only the ids of printed points are written; every other entry of the store keeps its value, or stays absent. */
  lemma {:induction false} ProcessFrame<V>(last: Watermarks, names: StatNames, rs: seq<MetricResult<V>>)
    requires AllWellFormed(rs)
    ensures var o := Process(last, names, rs);
      && (forall k :: k in o.last <==> k in last || k in Ids(o.printed))
      && (forall k :: k in last && k !in Ids(o.printed) ==> o.last[k] == last[k])
    decreases |rs|
  {
    if rs != [] {
      var first := Step(last, names, rs[0]);
      var rest := Process(first.last, names, rs[1..]);
      ProcessFrame(first.last, names, rs[1..]);
      assert Process(last, names, rs) == Then(first, rest);
      IdsAppend(first.printed, rest.printed);
      if IsNew(last, rs[0]) {
        assert Ids(first.printed) == {rs[0].id} by {
          assert first.printed[0].id == rs[0].id;
        }
      } else {
        assert Ids(first.printed) == {};
      }
      FrameCompose(last, first, rest);
    }
  }

  /** The induction step of `ProcessFrame`: a step writing only its printed ids, then a rest doing the same. */
  lemma FrameCompose<V>(last: Watermarks, first: Outcome<V>, rest: Outcome<V>)
    requires forall k :: k in first.last <==> k in last || k in Ids(first.printed)
    requires forall k :: k in last && k !in Ids(first.printed) ==> first.last[k] == last[k]
    requires forall k :: k in rest.last <==> k in first.last || k in Ids(rest.printed)
    requires forall k :: k in first.last && k !in Ids(rest.printed) ==> rest.last[k] == first.last[k]
    requires Ids(first.printed + rest.printed) == Ids(first.printed) + Ids(rest.printed)
    ensures forall k :: k in rest.last <==> k in last || k in Ids(first.printed + rest.printed)
    ensures forall k :: k in last && k !in Ids(first.printed + rest.printed) ==> rest.last[k] == last[k]
  {
  }

  lemma AllWellFormedAppend<V>(a: seq<MetricResult<V>>, b: seq<MetricResult<V>>)
    requires AllWellFormed(a) && AllWellFormed(b)
    ensures AllWellFormed(a + b)
  {
  }

  /**
   What one fetch forwards is exactly, and in the same order, a post for each printed point whose
   metric has a stat name: a subsequence of the printed lines under the stat names.
   */
  lemma ProcessForwardsNamedPrinted<V>(last: Watermarks, names: StatNames, rs: seq<MetricResult<V>>)
    requires AllWellFormed(rs)
    ensures var o := Process(last, names, rs);
      var idx := NamedPositions(o.printed, names, 0);
      && |o.posted| == |idx|
      && (forall i :: 0 <= i < |o.posted| ==> o.posted[i] == PostOf(o.printed[idx[i]], names))
      && (forall j :: 0 <= j < |o.printed| && o.printed[j].id in names ==> j in idx)
  {
    var o := Process(last, names, rs);
    assert o.printed[0..] == o.printed;
    ForwardsAtNamedPositions(o.printed, names, 0);
    NamedPositionsComplete(o.printed, names, 0);
  }

  /**
   A metric with no watermark yet reads as 0, so a first point at or before the Unix epoch is never
   reported and leaves the store without an entry for it.
   */
  lemma UnseenMetricIgnoresNonPositiveStamp<V>(last: Watermarks, names: StatNames, r: MetricResult<V>)
    requires WellFormed(r)
    requires r.id !in last
    requires Latest(r).Some? && Latest(r).value <= 0
    ensures Step(last, names, r) == Quiet(last)
  {
  }

  /** Processing a concatenation is processing its parts one after the other. */
  lemma {:induction false} ProcessAppend<V>(last: Watermarks, names: StatNames, a: seq<MetricResult<V>>, b: seq<MetricResult<V>>)
    requires AllWellFormed(a) && AllWellFormed(b)
    ensures AllWellFormed(a + b)
    ensures Process(last, names, a + b)
         == Then(Process(last, names, a), Process(Process(last, names, a).last, names, b))
    decreases |a|
  {
    AllWellFormedAppend(a, b);
    if a == [] {
      assert a + b == b;
      var pb := Process(last, names, b);
      assert Then(Quiet(last), pb) == pb;
    } else {
      var first := Step(last, names, a[0]);
      assert (a + b)[0] == a[0];
      assert (a + b)[1..] == a[1..] + b;
      ProcessAppend(first.last, names, a[1..], b);
      var ra := Process(first.last, names, a[1..]);
      var rb := Process(ra.last, names, b);
      assert Process(first.last, names, a[1..] + b) == Then(ra, rb);
      assert Process(last, names, a + b) == Then(first, Then(ra, rb));
      assert Process(last, names, a) == Then(first, ra);
      ThenAssociative(first, ra, rb);
    }
  }

  /** After processing, every watermark is at least the newest timestamp any result showed for its id. */
  ghost predicate Covers<V>(last: Watermarks, rs: seq<MetricResult<V>>) {
    forall i :: 0 <= i < |rs| && Latest(rs[i]).Some? ==> Latest(rs[i]).value <= Watermark(last, rs[i].id)
  }

  lemma {:induction false} ProcessCovers<V>(last: Watermarks, names: StatNames, rs: seq<MetricResult<V>>)
    requires AllWellFormed(rs)
    ensures Covers(Process(last, names, rs).last, rs)
    decreases |rs|
  {
    if rs != [] {
      var first := Step(last, names, rs[0]);
      var o := Process(last, names, rs);
      ProcessCovers(first.last, names, rs[1..]);
      ProcessMonotone(first.last, names, rs[1..]);
      assert o.last == Process(first.last, names, rs[1..]).last;
      forall i | 0 <= i < |rs| && Latest(rs[i]).Some?
        ensures Latest(rs[i]).value <= Watermark(o.last, rs[i].id)
      {
        if i > 0 {
          assert rs[i] == rs[1..][i - 1];
        } else {
          assert Latest(rs[0]).value <= Watermark(first.last, rs[0].id);
        }
      }
    }
  }

  /** Results that are all covered by the watermarks are silent: nothing is printed or forwarded and the store is untouched. */
  lemma {:induction false} ProcessCoveredIsQuiet<V>(last: Watermarks, names: StatNames, rs: seq<MetricResult<V>>)
    requires AllWellFormed(rs)
    requires Covers(last, rs)
    ensures Process(last, names, rs) == Quiet(last)
    decreases |rs|
  {
    if rs != [] {
      assert !IsNew(last, rs[0]);
      assert Covers(last, rs[1..]) by {
        forall i | 0 <= i < |rs[1..]| && Latest(rs[1..][i]).Some?
          ensures Latest(rs[1..][i]).value <= Watermark(last, rs[1..][i].id)
        {
          assert rs[1..][i] == rs[i + 1];
        }
      }
      ProcessCoveredIsQuiet(last, names, rs[1..]);
    }
  }

  /**
   Idempotence: fetching the same results again, against the watermarks the first pass left,
   reports nothing and changes nothing.
   */
  lemma ProcessIdempotent<V>(last: Watermarks, names: StatNames, rs: seq<MetricResult<V>>)
    requires AllWellFormed(rs)
    ensures var o := Process(last, names, rs);
      Process(o.last, names, rs) == Quiet(o.last)
  {
    ProcessCovers(last, names, rs);
    ProcessCoveredIsQuiet(Process(last, names, rs).last, names, rs);
  }

  /** A watermark after processing is its old value or the newest timestamp of one of the results for that id. */
  lemma {:induction false} ProcessWatermarkAttained<V>(last: Watermarks, names: StatNames, rs: seq<MetricResult<V>>, k: string)
    requires AllWellFormed(rs)
    ensures var w := Watermark(Process(last, names, rs).last, k);
      w == Watermark(last, k) || exists i :: 0 <= i < |rs| && rs[i].id == k && Latest(rs[i]) == Some(w)
    decreases |rs|
  {
    if rs != [] {
      var first := Step(last, names, rs[0]);
      var w := Watermark(Process(last, names, rs).last, k);
      ProcessWatermarkAttained(first.last, names, rs[1..], k);
      if w != Watermark(first.last, k) {
        var i :| 0 <= i < |rs[1..]| && rs[1..][i].id == k && Latest(rs[1..][i]) == Some(w);
        assert rs[i + 1] == rs[1..][i];
      } else if w != Watermark(last, k) {
        assert rs[0].id == k && Latest(rs[0]) == Some(w);
      }
    }
  }

  /**
   The watermark store as a maximum: after processing, the watermark of each id is the largest of its
   old value and the newest timestamps the results showed for it.
   */
  lemma ProcessWatermarkIsMaximum<V>(last: Watermarks, names: StatNames, rs: seq<MetricResult<V>>, k: string)
    requires AllWellFormed(rs)
    ensures var w := Watermark(Process(last, names, rs).last, k);
      && Watermark(last, k) <= w
      && (forall i :: 0 <= i < |rs| && rs[i].id == k && Latest(rs[i]).Some? ==> Latest(rs[i]).value <= w)
      && (w == Watermark(last, k) || exists i :: 0 <= i < |rs| && rs[i].id == k && Latest(rs[i]) == Some(w))
  {
    ProcessMonotone(last, names, rs);
    ProcessCovers(last, names, rs);
    ProcessWatermarkAttained(last, names, rs, k);
  }

  /**
   The result at position `i` is new when its newest timestamp is set and exceeds both the old watermark
   of its id and the newest timestamp of every earlier result for the same id.
   */
  ghost predicate NewAt<V>(last: Watermarks, rs: seq<MetricResult<V>>, i: int)
    requires 0 <= i < |rs|
  {
    && Latest(rs[i]).Some?
    && Watermark(last, rs[i].id) < Latest(rs[i]).value
    && forall j :: 0 <= j < i && rs[j].id == rs[i].id && Latest(rs[j]).Some? ==> Latest(rs[j]).value < Latest(rs[i]).value
  }

  /** Processing one more result is one more step from where the prefix left the store. */
  lemma ProcessSnoc<V>(last: Watermarks, names: StatNames, rs: seq<MetricResult<V>>, i: int)
    requires AllWellFormed(rs)
    requires 0 <= i < |rs|
    ensures AllWellFormed(rs[..i]) && AllWellFormed(rs[..i + 1])
    ensures var before := Process(last, names, rs[..i]);
      Process(last, names, rs[..i + 1]) == Then(before, Step(before.last, names, rs[i]))
  {
    var r := rs[i];
    assert rs[..i + 1] == rs[..i] + [r];
    var before := Process(last, names, rs[..i]);
    ProcessAppend(last, names, rs[..i], [r]);
    var step := Step(before.last, names, r);
    assert Process(before.last, names, [r]) == Then(step, Quiet(step.last)) by {
      assert [r][1..] == [];
    }
    assert step.printed + [] == step.printed;
    assert step.posted + [] == step.posted;
  }

  /** The store's test after a prefix agrees with `NewAt`, which mentions only the old store and the results. */
  lemma NewAtIsNew<V>(last: Watermarks, names: StatNames, rs: seq<MetricResult<V>>, i: int)
    requires AllWellFormed(rs)
    requires 0 <= i < |rs|
    ensures AllWellFormed(rs[..i])
    ensures NewAt(last, rs, i) <==> IsNew(Process(last, names, rs[..i]).last, rs[i])
  {
    var r := rs[i];
    var before := Process(last, names, rs[..i]);
    ProcessWatermarkIsMaximum(last, names, rs[..i], r.id);
    if NewAt(last, rs, i) {
      var w := Watermark(before.last, r.id);
      if w != Watermark(last, r.id) {
        var j :| 0 <= j < i && rs[..i][j].id == r.id && Latest(rs[..i][j]) == Some(w);
        assert rs[j] == rs[..i][j];
      }
    } else if Latest(r).Some? && Watermark(last, r.id) < Latest(r).value {
      var j :| 0 <= j < i && rs[j].id == r.id && Latest(rs[j]).Some? && Latest(rs[j]).value >= Latest(r).value;
      assert rs[..i][j] == rs[j];
    }
  }

  /**
   Exactly-when: processing the result at position `i` prints one line exactly when it is new in the
   sense of `NewAt`, and then sets its watermark to its timestamp; otherwise it changes nothing.
   */
  lemma EmittedExactlyWhen<V>(last: Watermarks, names: StatNames, rs: seq<MetricResult<V>>, i: int)
    requires AllWellFormed(rs)
    requires 0 <= i < |rs|
    ensures AllWellFormed(rs[..i]) && AllWellFormed(rs[..i + 1])
    ensures var before := Process(last, names, rs[..i]);
      var after := Process(last, names, rs[..i + 1]);
      if NewAt(last, rs, i) then
        && after.printed == before.printed + [Printed(rs[i].id, rs[i].values[0], Latest(rs[i]).value)]
        && after.last == before.last[rs[i].id := Latest(rs[i]).value]
      else
        after.printed == before.printed && after.last == before.last
  {
    ProcessSnoc(last, names, rs, i);
    NewAtIsNew(last, names, rs, i);
    var before := Process(last, names, rs[..i]);
    if !NewAt(last, rs, i) {
      assert before.printed + [] == before.printed;
    }
  }

  /** For each id, printed timestamps strictly increase. */
  ghost predicate IncreasingPerId<V>(ps: seq<Printed<V>>) {
    forall i, j :: 0 <= i < j < |ps| && ps[i].id == ps[j].id ==> ps[i].stamp < ps[j].stamp
  }

  /** Every printed point lies after its id's watermark in `lo` and no later than it in `hi`. */
  ghost predicate Between<V>(ps: seq<Printed<V>>, lo: Watermarks, hi: Watermarks) {
    forall i :: 0 <= i < |ps| ==> Watermark(lo, ps[i].id) < ps[i].stamp <= Watermark(hi, ps[i].id)
  }

  /** What one pass prints lies strictly after the old watermark and no later than the new one. */
  lemma {:induction false} ProcessPrintsBetween<V>(last: Watermarks, names: StatNames, rs: seq<MetricResult<V>>)
    requires AllWellFormed(rs)
    ensures var o := Process(last, names, rs);
      Between(o.printed, last, o.last)
    decreases |rs|
  {
    if rs != [] {
      var first := Step(last, names, rs[0]);
      var rest := Process(first.last, names, rs[1..]);
      assert Process(last, names, rs) == Then(first, rest);
      ProcessPrintsBetween(first.last, names, rs[1..]);
      if IsNew(last, rs[0]) {
        ProcessMonotone(first.last, names, rs[1..]);
        StepBetween(last, first, rest);
      } else {
        assert first.printed + rest.printed == rest.printed;
      }
    }
  }

  /** The induction step of `ProcessPrintsBetween` when the first result printed one line. */
  lemma StepBetween<V>(last: Watermarks, first: Outcome<V>, rest: Outcome<V>)
    requires |first.printed| == 1
    requires first.last == last[first.printed[0].id := first.printed[0].stamp]
    requires Watermark(last, first.printed[0].id) < first.printed[0].stamp
    requires forall k :: Watermark(first.last, k) <= Watermark(rest.last, k)
    requires Between(rest.printed, first.last, rest.last)
    ensures Between(first.printed + rest.printed, last, rest.last)
  {
  }

  /** For each id, what one pass prints comes in strictly increasing timestamp order. */
  lemma {:induction false} ProcessPrintsIncreasing<V>(last: Watermarks, names: StatNames, rs: seq<MetricResult<V>>)
    requires AllWellFormed(rs)
    ensures IncreasingPerId(Process(last, names, rs).printed)
    decreases |rs|
  {
    if rs != [] {
      var first := Step(last, names, rs[0]);
      var rest := Process(first.last, names, rs[1..]);
      assert Process(last, names, rs) == Then(first, rest);
      ProcessPrintsIncreasing(first.last, names, rs[1..]);
      if IsNew(last, rs[0]) {
        ProcessPrintsBetween(first.last, names, rs[1..]);
        StepIncreasing(first, rest);
      } else {
        assert first.printed + rest.printed == rest.printed;
      }
    }
  }

  /** The induction step of `ProcessPrintsIncreasing` when the first result printed one line. */
  lemma StepIncreasing<V>(first: Outcome<V>, rest: Outcome<V>)
    requires |first.printed| == 1
    requires Watermark(first.last, first.printed[0].id) == first.printed[0].stamp
    requires IncreasingPerId(rest.printed)
    requires Between(rest.printed, first.last, rest.last)
    ensures IncreasingPerId(first.printed + rest.printed)
  {
  }

  /** At most once: no two printed points share an id and a timestamp. */
  ghost predicate AtMostOnce<V>(ps: seq<Printed<V>>) {
    forall i, j :: 0 <= i < j < |ps| ==> ps[i].id != ps[j].id || ps[i].stamp != ps[j].stamp
  }

  lemma IncreasingIsAtMostOnce<V>(ps: seq<Printed<V>>)
    requires IncreasingPerId(ps)
    ensures AtMostOnce(ps)
  {
  }
}

=== FILE: loop.dfy ===
/**
 The polling loop as a whole: each iteration plans its window, takes the results of its fetch,
 runs the dedup/forward step over them and then sleeps for what is left of the interval. The
 clock and the fetch are outside the model, so a run is driven by a sequence of polls that
 supply them.
 */
module Loop {
  import opened Options
  import Clock
  import Planner
  import Pacing
  import opened Dedup

  /**
   What the outside world supplies to one iteration: the clock at its start (Unix nanoseconds), the
   results of its fetch, and how long the iteration took before sleeping (nanoseconds).
   */
  datatype Poll<V> = Poll(now: int, results: seq<MetricResult<V>>, elapsed: int)

  /** A monotonic clock never reports a negative elapsed time, and a Go duration is an `int64`. */
  predicate ValidPoll<V>(p: Poll<V>) {
    AllWellFormed(p.results) && 0 <= p.elapsed <= Clock.MaxInt64
  }

  predicate AllValid<V>(polls: seq<Poll<V>>) {
    forall i :: 0 <= i < |polls| ==> ValidPoll(polls[i])
  }

  /** One iteration: the window it asked for, what processing its results did, and how long it then waited. */
  datatype Iteration<V> = Iteration(window: Planner.FetchWindow, outcome: Outcome<V>, wait: nat)

  /**
   One pass of the loop body. The window is planned from the iteration's clock reading, the store
   only moves forward, and with a non-negative interval the iteration's running time plus its requested
   wait is the longer of the interval and the iteration itself (the real sleep can overrun it).
   */
  function Iterate<V>(sleepDur: int, names: StatNames, last: Watermarks, p: Poll<V>): (it: Iteration<V>)
    requires Clock.IsInt64(sleepDur)
    requires ValidPoll(p)
    ensures it.window == Planner.Plan(p.now)
    ensures forall k :: Watermark(last, k) <= Watermark(it.outcome.last, k)
    ensures Covers(it.outcome.last, p.results)
    ensures 0 <= sleepDur ==> p.elapsed + it.wait == (if sleepDur <= p.elapsed then p.elapsed else sleepDur)
  {
    ProcessMonotone(last, names, p.results);
    ProcessCovers(last, names, p.results);
    var window := Planner.Plan(p.now);
    var outcome := Process(last, names, p.results);
    var wait := Pacing.Wait(Pacing.Remaining(sleepDur, p.elapsed));
    Iteration(window, outcome, wait)
  }

  /** Everything a run did: the final store, the printed and forwarded logs, and each iteration's window and wait. */
  datatype Trace<V> = Trace(
    last: Watermarks,
    printed: seq<Printed<V>>,
    posted: seq<Posted<V>>,
    windows: seq<Planner.FetchWindow>,
    waits: seq<nat>)

  /** Iterating the loop body over a sequence of polls, starting from the store `last`. */
  function Run<V>(sleepDur: int, names: StatNames, last: Watermarks, polls: seq<Poll<V>>): (t: Trace<V>)
    requires Clock.IsInt64(sleepDur)
    requires AllValid(polls)
    ensures |t.windows| == |polls| && |t.waits| == |polls|
    ensures forall i :: 0 <= i < |polls| ==> t.windows[i] == Planner.Plan(polls[i].now)
    ensures forall k :: Watermark(last, k) <= Watermark(t.last, k)
    decreases |polls|
  {
    if polls == [] then Trace(last, [], [], [], [])
    else
      var it := Iterate(sleepDur, names, last, polls[0]);
      var rest := Run(sleepDur, names, it.outcome.last, polls[1..]);
      Trace(rest.last,
            it.outcome.printed + rest.printed,
            it.outcome.posted + rest.posted,
            [it.window] + rest.windows,
            [it.wait] + rest.waits)
  }

  /** All results fetched over a run, in order. */
  function Fetched<V>(polls: seq<Poll<V>>): (rs: seq<MetricResult<V>>)
    requires AllValid(polls)
    ensures AllWellFormed(rs)
    decreases |polls|
  {
    if polls == [] then []
    else
      var rest := Fetched(polls[1..]);
      AllWellFormedAppend(polls[0].results, rest);
      polls[0].results + rest
  }

  /**
   A run reports exactly what one pass over all the results it fetched would report: polling in
   several windows neither adds nor loses anything.
   */
  lemma {:induction false} RunIsOnePass<V>(sleepDur: int, names: StatNames, last: Watermarks, polls: seq<Poll<V>>)
    requires Clock.IsInt64(sleepDur)
    requires AllValid(polls)
    ensures var t := Run(sleepDur, names, last, polls);
      var o := Process(last, names, Fetched(polls));
      t.last == o.last && t.printed == o.printed && t.posted == o.posted
    decreases |polls|
  {
    if polls != [] {
      var p := polls[0];
      var it := Iterate(sleepDur, names, last, p);
      RunIsOnePass(sleepDur, names, it.outcome.last, polls[1..]);
      ProcessAppend(last, names, p.results, Fetched(polls[1..]));
    }
  }

  /**
   At most once across polls: however the windows overlap, no point is printed twice for the same
   metric and timestamp; per metric, printed timestamps strictly increase and each lies after the
   metric's watermark at the start of the run.
   */
  lemma RunReportsAtMostOnce<V>(sleepDur: int, names: StatNames, last: Watermarks, polls: seq<Poll<V>>)
    requires Clock.IsInt64(sleepDur)
    requires AllValid(polls)
    ensures var t := Run(sleepDur, names, last, polls);
      && AtMostOnce(t.printed)
      && IncreasingPerId(t.printed)
      && Between(t.printed, last, t.last)
  {
    RunIsOnePass(sleepDur, names, last, polls);
    ProcessPrintsIncreasing(last, names, Fetched(polls));
    ProcessPrintsBetween(last, names, Fetched(polls));
    IncreasingIsAtMostOnce(Process(last, names, Fetched(polls)).printed);
  }

  /**
   Overlapping windows return the same newest points again: a second poll that fetches the same
   results as the first prints and forwards nothing more, and leaves the store as the first left it.
   */
  lemma RepeatedFetchReportsOnce<V>(sleepDur: int, names: StatNames, last: Watermarks, p: Poll<V>, q: Poll<V>)
    requires Clock.IsInt64(sleepDur)
    requires ValidPoll(p) && ValidPoll(q)
    requires q.results == p.results
    ensures var once := Process(last, names, p.results);
      var t := Run(sleepDur, names, last, [p, q]);
      t.last == once.last && t.printed == once.printed && t.posted == once.posted
  {
    var once := Process(last, names, p.results);
    ProcessIdempotent(last, names, p.results);
    assert [p, q][1..] == [q];
    assert [q][1..] == [];
    var second := Iterate(sleepDur, names, once.last, q);
    assert second.outcome == Quiet(once.last);
    var tail := Run(sleepDur, names, once.last, [q]);
    var empty := Run(sleepDur, names, once.last, []);
    assert empty.last == once.last && empty.printed == [] && empty.posted == [];
    assert tail.printed == second.outcome.printed + empty.printed;
    assert tail.posted == second.outcome.posted + empty.posted;
    assert tail.last == once.last && tail.printed == [] && tail.posted == [];
    assert once.printed + [] == once.printed;
    assert once.posted + [] == once.posted;
  }

  /**
   The cadence leaves no gap: when neither the interval nor an iteration exceeds four minutes and
   the next clock reading comes less than a minute after the planned wake-up, the next poll's
   half-open window starts no later than the current one ends, and ends no earlier.
   */
  lemma CadenceLeavesNoGap<V>(sleep: Option<int>, names: StatNames, last: Watermarks, p: Poll<V>, nextNow: int)
    requires sleep.Some? ==> 0 <= sleep.value <= Pacing.MaxSleepSeconds
    requires ValidPoll(p)
    requires Pacing.SleepDuration(sleep) <= Planner.Lookback - Clock.Minute
    requires p.elapsed <= Planner.Lookback - Clock.Minute
    requires var due := p.now + p.elapsed + Iterate(Pacing.SleepDuration(sleep), names, last, p).wait;
      due <= nextNow < due + Clock.Minute
    ensures var window := Iterate(Pacing.SleepDuration(sleep), names, last, p).window;
      && Planner.Plan(nextNow).start <= window.end
      && window.end <= Planner.Plan(nextNow).end
  {
    var it := Iterate(Pacing.SleepDuration(sleep), names, last, p);
    Pacing.WaitCompensatesDrift(sleep, p.elapsed);
    assert p.now <= nextNow < p.now + Planner.Lookback;
    Planner.PlanWindowsTouch(p.now, nextNow);
  }
}

=== FILE: options.dfy ===
/** The optional values of the relay: a nil pointer or an absent configuration key is `None`. */
module Options {

  datatype Option<+T> = None | Some(value: T)
}

=== FILE: pacing.dfy ===
/**
 Drift-corrected sleeping between polls. Durations are Go `time.Duration` values: `int64`
 nanoseconds whose arithmetic wraps around.
 */
module Pacing {
  import opened Options
  import opened Clock

  /** The poll interval when the configuration has no `sleep` key. */
  const DefaultSleep: int := 30 * Second

  /** The largest `sleep` setting, in seconds, whose conversion to a duration does not wrap. */
  const MaxSleepSeconds: int := MaxInt64 / Second

  /**
   The configured poll interval. `sleep` is the optional integer `sleep` key, in seconds; its
   conversion to nanoseconds is an `int64` multiplication and wraps for very large settings.
   */
  function SleepDuration(sleep: Option<int>): (d: int)
    requires sleep.Some? ==> IsInt64(sleep.value)
    ensures IsInt64(d)
    ensures sleep.None? ==> d == 30 * Second
    ensures sleep.Some? && -MaxSleepSeconds <= sleep.value <= MaxSleepSeconds ==> d == sleep.value * Second
    ensures sleep.Some? ==> (sleep.value * Second - d) % Int64Span == 0
  {
    match sleep
    case None => DefaultSleep
    case Some(s) => Int64(s * Second)
  }

  /** What is left of the interval after an iteration that took `elapsed`: an `int64` subtraction. */
  function Remaining(sleepDur: int, elapsed: int): (left: int)
    requires IsInt64(sleepDur) && 0 <= elapsed <= MaxInt64
    ensures IsInt64(left)
    ensures 0 <= sleepDur ==> left == sleepDur - elapsed
    ensures left <= sleepDur - elapsed || sleepDur - elapsed < MinInt64
    ensures (sleepDur - elapsed - left) % Int64Span == 0
  {
    Int64(sleepDur - elapsed)
  }

  /**
   The sleep `time.Sleep(left)` is asked for: a duration that is not positive returns at once.
   The real sleep can last longer than requested; that overrun is not modelled here.
   */
  function Wait(left: int): (w: nat)
    ensures left <= w
    ensures w == 0 || w == left
    ensures w == 0 <==> left <= 0
  {
    if left <= 0 then 0 else left
  }

  /**
   With a sane setting, the loop asks to sleep `max(0, interval - elapsed)`, so one iteration plus
   its requested wait is `max(interval, elapsed)`: the iteration's own running time is compensated,
   and only the overrun of the real sleep can make the cadence drift.
   */
  lemma WaitCompensatesDrift(sleep: Option<int>, elapsed: int)
    requires sleep.Some? ==> 0 <= sleep.value <= MaxSleepSeconds
    requires 0 <= elapsed <= MaxInt64
    ensures var interval := SleepDuration(sleep);
      && 0 <= interval
      && Wait(Remaining(interval, elapsed)) == (if interval <= elapsed then 0 else interval - elapsed)
      && elapsed + Wait(Remaining(interval, elapsed)) == (if interval <= elapsed then elapsed else interval)
  {
  }

  /**
   A `sleep` setting just above the largest representable interval wraps around to a negative
   interval, so the subtraction of the elapsed time can underflow in turn.
   */
  lemma OversizedSleepWrapsNegative()
    ensures SleepDuration(Some(MaxSleepSeconds + 1)) < 0
    ensures SleepDuration(Some(MaxSleepSeconds + 1)) - MinInt64 == 145224192
  {
  }

  /**
   With that setting an iteration that takes at most 145224192 nanoseconds does not wait at all,
   and a slower one underflows to a huge positive duration: after an iteration of up to an hour
   the loop sleeps for more than 292 years.
   */
  lemma OversizedSleepStalls(elapsed: int)
    requires 0 <= elapsed <= MaxInt64
    ensures var w := Wait(Remaining(SleepDuration(Some(MaxSleepSeconds + 1)), elapsed));
      && (elapsed <= 145224192 ==> w == 0)
      && (145224192 < elapsed ==> w == (MaxSleepSeconds + 1) * Second - elapsed)
      && (145224192 < elapsed <= 60 * Minute ==> w > 292 * 365 * 24 * 60 * Minute)
  {
  }
}

=== FILE: planner.dfy ===
/**
 The fetch window planner: each poll asks for the five minutes of data that end at the
 minute boundary following `now`. Times are Unix nanoseconds.
 */
module Planner {
  import opened Clock

  /** How far back a query reaches from its end. */
  const Lookback: int := 5 * Minute

  /** The `[start, end)` interval a query covers. */
  datatype FetchWindow = FetchWindow(start: int, end: int)

  /**
   Go's `Time.Truncate(time.Minute)`: rounds down to a whole minute since the zero time. The zero
   time (1 January of year 1) lies a whole number of minutes before the Unix epoch, so this is
   rounding down on Unix time, on either side of the epoch.
   */
  function TruncateToMinute(t: int): (r: int)
    ensures r % Minute == 0
    ensures r <= t < r + Minute
  {
    var q := t / Minute;
    assert t == q * Minute + t % Minute;
    q * Minute
  }

  /** The window of the poll started at `now`: `end` is the next minute boundary after `now`. */
  function Plan(now: int): (w: FetchWindow)
    ensures w.end % Minute == 0
    ensures now < w.end <= now + Minute
    ensures w.end - w.start == Lookback
    ensures w.start < now
  {
    var end := TruncateToMinute(now) + Minute;
    FetchWindow(end - Lookback, end)
  }

  /** Two polls in the same minute ask for the same window: the plan depends on `now` only through its minute. */
  lemma PlanDependsOnlyOnMinute(now1: int, now2: int)
    requires now1 / Minute == now2 / Minute
    ensures Plan(now1) == Plan(now2)
  {
  }

  /** A later poll never asks for an earlier window. */
  lemma PlanMonotone(now1: int, now2: int)
    requires now1 <= now2
    ensures Plan(now1).end <= Plan(now2).end
    ensures Plan(now1).start <= Plan(now2).start
  {
  }

  /**
   Overlapping windows: a poll no more than four minutes after another asks for a window that starts
   no later than the earlier window ends, so no stretch of time falls between them.
   */
  lemma PlanLeavesNoGap(now1: int, now2: int)
    requires now1 <= now2 <= now1 + Lookback - Minute
    ensures Plan(now2).start < Plan(now1).end
    ensures Plan(now1).end <= Plan(now2).end
  {
  }

  /**
   A poll less than five minutes after another asks for a window that starts no later than the
   earlier half-open window ends: the two windows at least touch.
   */
  lemma PlanWindowsTouch(now1: int, now2: int)
    requires now1 <= now2 < now1 + Lookback
    ensures Plan(now2).start <= Plan(now1).end
    ensures Plan(now1).end <= Plan(now2).end
  {
  }
}

=== FILE: query.dfy ===
/**
 Building the metric-data queries, and the table of stat names used for forwarding, from the
 `metrics` table of the configuration. Each metric is a sub-table under its key.
 */
module Query {
  import opened Options

  /**
   The fields of one `metrics.<key>` table. `namespace` and `name` are required; `dimension`,
   `dimvalue` and `stat_name` are optional keys.
   */
  datatype MetricConfig = MetricConfig(
    namespace: string,
    name: string,
    dimension: Option<string>,
    dimvalue: Option<string>,
    statName: Option<string>)

  datatype Dimension = Dimension(name: string, value: string)

  /** One query: 60-second averages of one metric, correlated with its result by `id`. */
  datatype MetricDataQuery = MetricDataQuery(
    id: string,
    namespace: string,
    metricName: string,
    dimensions: seq<Dimension>,
    period: int,
    stat: string)

  const Period: int := 60
  const Statistic: string := "Average"

  /**
   The dimensions a metric is narrowed by: one when both `dimension` and `dimvalue` are set, none
   otherwise. A lone `dimension` or `dimvalue` is dropped without complaint.
   */
  function Dimensions(cfg: MetricConfig): (ds: seq<Dimension>)
    ensures |ds| <= 1
    ensures |ds| == 1 <==> cfg.dimension.Some? && cfg.dimvalue.Some?
    ensures |ds| == 1 ==> ds[0].name == cfg.dimension.value && ds[0].value == cfg.dimvalue.value
  {
    match (cfg.dimension, cfg.dimvalue)
    case (Some(dim), Some(val)) => [Dimension(dim, val)]
    case _ => []
  }

  /** The query for the metric configured under `key`. */
  function BuildQuery(key: string, cfg: MetricConfig): MetricDataQuery {
    MetricDataQuery(key, cfg.namespace, cfg.name, Dimensions(cfg), Period, Statistic)
  }

  /**
   The startup loop over the metric keys: one query per key, in the order the keys are listed, and
   the stat-name table, which holds exactly the metrics that set `stat_name`, under that name.
   Every query is correlated by a configured key, and every metric with a stat name has a query,
   so each forwarded result can be matched to its stat name.
   `keys` lists the keys of `metrics` in the configuration's own order.
   */
  method BuildQueries(metrics: map<string, MetricConfig>, keys: seq<string>)
    returns (queries: seq<MetricDataQuery>, statNames: map<string, string>)
    requires forall k :: k in metrics <==> k in keys
    ensures |queries| == |keys|
    ensures forall i :: 0 <= i < |keys| ==> queries[i] == BuildQuery(keys[i], metrics[keys[i]])
    ensures forall k :: k in statNames <==> k in metrics && metrics[k].statName.Some?
    ensures forall k :: k in statNames ==> statNames[k] == metrics[k].statName.value
    ensures forall i :: 0 <= i < |queries| ==> queries[i].id in metrics
    ensures forall k :: k in statNames ==> exists i :: 0 <= i < |queries| && queries[i].id == k
  {
    queries := [];
    statNames := map[];
    var i := 0;
    while i < |keys|
      invariant 0 <= i <= |keys|
      invariant |queries| == i
      invariant forall j :: 0 <= j < i ==> queries[j] == BuildQuery(keys[j], metrics[keys[j]])
      invariant forall k :: k in statNames <==> k in keys[..i] && metrics[k].statName.Some?
      invariant forall k :: k in statNames ==> statNames[k] == metrics[k].statName.value
    {
      var key := keys[i];
      var metric := metrics[key];
      queries := queries + [BuildQuery(key, metric)];
      if metric.statName.Some? {
        statNames := statNames[key := metric.statName.value];
      }
      assert keys[..i + 1] == keys[..i] + [key];
      i := i + 1;
    }
    assert keys[..i] == keys;
  }
}

=== FILE: scenarios.dfy ===
/** Concrete runs of the loop: two overlapping polls, a metric without a stat name, and a metric with no data. */
module Scenarios {
  import opened Options
  import Clock
  import Pacing
  import opened Dedup
  import opened Loop

  function CpuAt95(): MetricResult<real> {
    MetricResult("cpu", [Some(95)], [42.0])
  }

  /**
   Two polls 30 seconds apart both see the cpu point stamped 95: it is printed and forwarded once,
   and the cpu watermark ends at 95.
   */
  lemma OverlappingPollsReportOnce()
    ensures var polls := [Poll(100 * Clock.Second, [CpuAt95()], 0), Poll(130 * Clock.Second, [CpuAt95()], 0)];
      var t := Run(Pacing.DefaultSleep, map["cpu" := "cpu.avg"], map[], polls);
      && t.printed == [Printed("cpu", 42.0, 95)]
      && t.posted == [Posted("cpu.avg", 42.0, 95)]
      && t.last == map["cpu" := 95]
  {
    var p := Poll(100 * Clock.Second, [CpuAt95()], 0);
    var q := Poll(130 * Clock.Second, [CpuAt95()], 0);
    var names := map["cpu" := "cpu.avg"];
    RepeatedFetchReportsOnce(Pacing.DefaultSleep, names, map[], p, q);
    assert [CpuAt95()][1..] == [];
  }

  /** A metric without a stat name is printed when it has a new point, but nothing is forwarded. */
  lemma UnnamedMetricIsPrintedOnly()
    ensures var t := Process(map[], map["cpu" := "cpu.avg"], [MetricResult("mem", [Some(120), Some(60)], [7.5, 7.0])]);
      && t.printed == [Printed("mem", 7.5, 120)]
      && t.posted == []
      && t.last == map["mem" := 120]
  {
  }

  function NoData(): MetricResult<real> {
    MetricResult("disk", [], [])
  }

  /** A metric with no data point in the window prints nothing, forwards nothing and leaves the store alone. */
  lemma EmptyResultIsSilent()
    ensures var last := map["disk" := 60];
      Process(last, map["disk" := "disk.used"], [NoData()]) == Quiet(last)
  {
  }
}
